=== FILE: README.md ===
# Keyspaces table resource: a Dafny model

This project models the decision logic of the Terraform `aws_keyspaces_table`
resource (`internal/service/keyspaces/table.go`). It covers four parts:

- **Resource-ID codec.** `TableCreateResourceID` joins the keyspace and table names with `/`. `TableParseResourceID` splits the ID on every `/` with Go's `strings.Split`, modelled in `GoStrings`.
- **Name validator.** This is the `ValidateFunc` of `keyspace_name` and `table_name`: `StringLenBetween(1, 48)` together with the anchored regex `^[a-zA-Z0-9][a-zA-Z0-9_]{1,47}$`. The regex is modelled as character classes and a bounded repetition.
- **Status probe and waiters.** `statusTable` maps a table lookup to `(object, status, error)`. Each of the create, update and delete waiters has a fixed Pending/Target status configuration.
- **Lifecycle operations.** Create, read, update and delete are pure functions. Every Keyspaces API answer and every wait outcome is a parameter, held in a `Remote` record. Each operation returns three things: the resource data it leaves behind, the sequence of remote calls it made, and the diagnostic it returns.

Files: `wrappers.dfy` (Option/Result), `go_strings.dfy`, `names.dfy`,
`resource_id.dfy`, `table_status.dfy`, `table_resource.dfy`.

Two details of the code are worth noting:

- The code accepts names of 2 to 48 characters, although its own length check allows 1 to 48 (see Findings).
- Tag synchronisation passes the old and new `tags_all` maps to `UpdateTags`, which is not part of this model. The model records that call with both maps.

## Model

| member | source | states |
|---|---|---|
| GoStrings.Join | internal/service/keyspaces/table.go:233 | `strings.Join`: no parts give `""`; otherwise the first part is a prefix of the result, followed by the separator when more parts come |
| GoStrings.Split | internal/service/keyspaces/table.go:239 | `strings.Split` on `/` yields one more part than the ID has separators, and no part contains a separator |
| GoStrings.JoinSplit | internal/service/keyspaces/table.go:231-243 | joining the parts of any split with the separator gives back the original string |
| GoStrings.SplitJoin | internal/service/keyspaces/table.go:231-243 | splitting a join of separator-free parts gives back exactly those parts |
| ResourceId.TableCreateResourceID | internal/service/keyspaces/table.go:229-236 | the ID is the keyspace name, then one `/`, then the table name, with lengths adding up |
| ResourceId.TableParseResourceID | internal/service/keyspaces/table.go:238-246 | parsing succeeds iff the ID has exactly one `/` and it is neither first nor last; on success both names are non-empty and `/`-free; on failure both names are `""` and the error carries the ID |
| ResourceId.ParseCreateRoundTrip | internal/service/keyspaces/table.go:229-243 | for any non-empty, `/`-free names, parse(create(k, t)) returns exactly (k, t) with no error |
| ResourceId.ValidNamesRoundTrip | internal/service/keyspaces/table.go:52-70 | every pair of names the attribute validator accepts survives the create/parse round trip |
| ResourceId.IntendedNamesRoundTrip | internal/service/keyspaces/table.go:52-70 | the round trip also holds for every pair the corrected validator accepts |
| ResourceId.CreateParseRoundTrip | internal/service/keyspaces/table.go:238-243 | whenever parsing succeeds with (k, t), create(k, t) is the original ID |
| ResourceId.ParseRejects | internal/service/keyspaces/table.go:239-245 | parse fails for `""`, for an ID without `/`, for two or more `/`, and for a `/` at either end; in that last case both names are `""` |
| ResourceId.ParseRejectsShortExamples | internal/service/keyspaces/table.go:239-245 | `""`, `"foo"`, `"/b"` and `"a/"` are rejected |
| ResourceId.ParseRejectsTwoSeparators | internal/service/keyspaces/table.go:239-245 | `"a/b/c"` is rejected with empty names and an error naming the ID |
| ResourceId.ParseAcceptsExample | internal/service/keyspaces/table.go:238-243 | `"a/b"` parses to keyspace `a`, table `b` |
| NameValidation.RepeatMatchesIff | internal/service/keyspaces/table.go:55 | a bounded repetition `C{lo,hi}` matches exactly the strings of length lo..hi made of class members |
| NameValidation.HeadClassIsAlnum | internal/service/keyspaces/table.go:55 | the class `[a-zA-Z0-9]` holds exactly the ASCII letters and digits |
| NameValidation.TailClassIsNameChar | internal/service/keyspaces/table.go:55 | the class `[a-zA-Z0-9_]` holds exactly the ASCII letters, digits and `_` |
| NameValidation.NamePatternCharacterization | internal/service/keyspaces/table.go:55 | the anchored name pattern matches exactly the strings of 1+min..48 characters that start alphanumeric and continue with letters, digits or `_` |
| NameValidation.ValidName | internal/service/keyspaces/table.go:52-58 | the `ValidateFunc`: every accepted name has 2..48 characters, so it passes `StringLenBetween(1, 48)` with a minimum one higher than that check asks |
| NameValidation.ValidNameCharacterization | internal/service/keyspaces/table.go:52-58 | the validator accepts exactly the names of 2..48 characters whose first character is ASCII alphanumeric and whose others are alphanumeric or `_` |
| NameValidation.SingleCharacterRejected | internal/service/keyspaces/table.go:64-70 | a one-character alphanumeric name passes the length check but is rejected by the validator as written |
| NameValidation.ValidNameIntendedCharacterization | internal/service/keyspaces/table.go:52-58 | the corrected validator accepts exactly the 1..48-character names of that alphabet, and its pattern alone implies the length check |
| NameValidation.ValidNameIsIntended | internal/service/keyspaces/table.go:52-58 | every name accepted as written is accepted by the corrected validator |
| NameValidation.ValidNameHasNoSlash | internal/service/keyspaces/table.go:52-58 | an accepted name is non-empty and never contains `/` |
| NameValidation.IntendedNameHasNoSlash | internal/service/keyspaces/table.go:64-70 | a name the corrected validator accepts is non-empty and `/`-free |
| TableStatus.StringValue | internal/service/keyspaces/table.go:260 | `aws.StringValue`: the result is `""` exactly for nil or a pointer to `""`, and any other result is the pointed-to string |
| TableStatus.StatusTable | internal/service/keyspaces/table.go:248-261 | not-found gives (no object, `""`, no error); another lookup error gives (no object, `""`, that error); a found table gives (the table, its own `Status` with nil read as `""`, no error) |
| TableStatus.StatusTableInjective | internal/service/keyspaces/table.go:248-261 | different lookup results always give different probe results, so not-found, error and found stay distinguishable |
| TableStatus.WaitConf | internal/service/keyspaces/table.go:264-313 | create pends on CREATING, update on UPDATING, delete on DELETING; create and update target ACTIVE; only delete has an empty target, so it waits for the table to vanish; no pending status is also a target |
| TableStatus.WaitConfDistinctPending | internal/service/keyspaces/table.go:264-303 | no two waiters share a pending list |
| TableResource.IsResourceNotFound | internal/service/keyspaces/table.go:214 | `tfawserr.ErrCodeEquals`: false for a nil error; true only for an error whose code is `ResourceNotFoundException`, and for every such error |
| TableResource.NewCreateTableInput | internal/service/keyspaces/table.go:86-94 | the create request carries `Tags` iff the filtered tag map is non-empty, and then exactly that map |
| TableResource.Create | internal/service/keyspaces/table.go:78-110 | the first call is the create request with the names and the tag rule above; a rejected request leaves the data, including the ID, untouched and makes no other call; otherwise the ID is set and the create waiter runs next; a failed wait ends the operation with `WaitingCreateFailed` after those two calls; after a successful wait the result, further calls and diagnostic are those of reading the table back as a new resource |
| TableResource.Read | internal/service/keyspaces/table.go:112-159 | a malformed ID fails with no calls; otherwise the table is looked up by the parsed names; the ID is cleared iff the resource is not new and the table is not found, and then without a diagnostic; a new resource that is not found, or a failed lookup, fails with `ReadingFailed` carrying the lookup, after that one call and with the data unchanged; once the table is found, the only other call is the tag listing for its ARN, and the ARN and names are set from the lookup whether or not the listing succeeds; a failed tag listing fails with `ListingTagsFailed` carrying its error; on success the ARN, names and tags come from the lookup and tag listing; it makes only lookup and tag-listing calls |
| TableResource.Update | internal/service/keyspaces/table.go:161-197 | a malformed ID fails with no calls; without field changes there is no update call and no wait; without tag changes there is no tag call; any wait uses the update configuration; a rejected field update fails with `UpdatingFailed` after one call; a failed update wait fails with `WaitingUpdateFailed` after two; once the field part succeeded, a rejected tag update fails with `UpdatingTagsFailed` and exactly the field calls plus `UpdateTags(arn, old, new)`; otherwise the calls are the field calls, the tag call if tags changed, then the read-back's calls, with the read-back's data and diagnostic |
| TableResource.UpdateParsed | internal/service/keyspaces/table.go:170-196 | for the parsed names: the field update and its wait come first and stop the operation on failure, with the matching diagnostic; once they succeed, what follows is the tag sync and read-back |
| TableResource.SyncTagsThenRead | internal/service/keyspaces/table.go:188-196 | `UpdateTags(arn, old, new)` is called iff `tags_all` changed; its failure ends the operation with `UpdatingTagsFailed`; otherwise the table is read back as an existing resource, and no field update or wait occurs |
| TableResource.Delete | internal/service/keyspaces/table.go:199-227 | a malformed ID fails with no calls; the first call deletes the parsed table; not-found succeeds with that one call; another error fails with that one call; a wait with the delete configuration happens iff the request was accepted, and then the calls are exactly the delete and that wait, with `WaitingDeleteFailed` carrying the wait error iff the wait failed; success iff not-found, or accepted and waited |
| TableResource.CreateSucceeds | internal/service/keyspaces/table.go:78-110 | with valid names and every call succeeding, create succeeds, sets the ID and calls create, wait(CREATING→ACTIVE), lookup, list tags in that order |
| TableResource.CreateThenNotFoundFails | internal/service/keyspaces/table.go:103-132 | a table not found on the read right after create is a reading error, and the ID stays set |
| TableResource.CreatedIdParses | internal/service/keyspaces/table.go:83-117 | once the create request is accepted, the stored ID parses back to the configured names |
| TableResource.DeleteTwice | internal/service/keyspaces/table.go:209-216 | after a successful delete, a second delete answered with ResourceNotFoundException also succeeds, without waiting |
| TableResource.ReadIsStable | internal/service/keyspaces/table.go:112-159 | reading again with the same answers after a successful read leaves the data unchanged |
| TableResource.ReadGoneVersusNew | internal/service/keyspaces/table.go:123-132 | for a not-found table, an existing resource is dropped (ID `""`, no diagnostic) while a new one gets a reading error and keeps its data |
| TableResource.UpdateOnlyTags | internal/service/keyspaces/table.go:170-196 | a tags-only update makes exactly the tag call and then reads back |
| TableResource.UpdateOnlyFields | internal/service/keyspaces/table.go:170-196 | a fields-only update makes the update call, waits UPDATING→ACTIVE, reads back, and never touches tags |

## Left out

- The polling loop `resource.StateChangeConf.WaitForStateContext` belongs to the Terraform plugin SDK. Its timing, retries, not-found counting and timeout are not part of this model. A wait is represented only by its configuration and by an abstract outcome (`Remote.wait`).
- The create/update/delete timeouts (10-minute defaults, lines 36-38) are configuration constants, and they only matter to that loop.
- The Keyspaces SDK calls `CreateTableWithContext`, `UpdateTableWithContext` and `DeleteTableWithContext` are network I/O. So are the provider helpers `FindTableByTwoPartKey`, `ListTags` and `UpdateTags` (table.go:123, 141, 191, and 250). These are unqualified functions of package `keyspaces` that are not part of this model; each takes the client `conn` and wraps an SDK call. The model records each call as a `Call` and takes its answer from `Remote`. In the source, `FindTableByTwoPartKey` runs on every poll of every wait (line 250) and again in the read-back (line 123). The poll probes are hidden inside the abstract wait outcome `Remote.wait`, and `Remote.find` answers only the read-back lookup. With that, each modelled call is made at most once per operation, so one answer per kind is enough.
- The tag helpers `MergeTags`, `IgnoreAWS`, `IgnoreConfig` and `RemoveDefaultConfig` are in the tags package, which is not part of this model. The conversion helper `Tags` (table.go:91) is an unqualified function of package `keyspaces`, which is also not part of this model. Create takes the tag map already merged, filtered and converted. The tag listing is taken as already filtered. Only `tags_all` is stored, so the separate `tags` attribute (defaults removed) is not modelled.
- Framework plumbing is not modelled: the schema declaration, `ResourceData` get/set, the errors of `d.Set` (lines 150-156), the importer, `CustomizeDiff` and logging. `HasChangesExcept("tags", "tags_all")` becomes the boolean `fieldsChanged`. Under this resource's schema every non-tag attribute is either computed (`arn`) or forces replacement (`keyspace_name`, `table_name`), so `fieldsChanged` cannot be true in an actual update. The `fieldsChanged` branch (lines 170-186) is dead code in this source; it is modelled anyway, as written. `HasChange("tags_all")` becomes a comparison of the old and new maps.
- Diagnostics are structured values naming the ID and the cause. The formatted message text is not modelled.
- GoStrings.Split: models `strings.Split` only for a one-character separator, because that is the only form used.
- NameValidation.ValidName: characters are Dafny chars, while Go's `StringLenBetween` counts bytes. The regex accepts only ASCII, so the two counts agree on every accepted name.

## Findings

| source | as written | input that shows it | evidently intended | confidence | as-written member | corrected member |
|---|---|---|---|---|---|---|
| internal/service/keyspaces/table.go:52-58 | the pattern `^[a-zA-Z0-9][a-zA-Z0-9_]{1,47}$` needs at least two characters, which silently raises `StringLenBetween(1, 48)`'s minimum to 2 (same at lines 64-70) | the name `"a"` | `{0,47}`, so that the pattern agrees with the 1..48 length check and one-character keyspace and table names are accepted | medium, not executed | NameValidation.SingleCharacterRejected | NameValidation.ValidNameIntendedCharacterization |

The lifecycle lemmas (`CreateSucceeds`, `CreateThenNotFoundFails`,
`CreatedIdParses`) are stated for names of the corrected form. By
`ValidNameIsIntended`, this includes every name the validator as written
accepts.

=== FILE: go_strings.dfy ===
/**
  Go's `strings.Split` and `strings.Join` for a one-character separator,
  the only form the table resource uses.
 */
module GoStrings {

  /**
    `strings.Join(parts, sep)`: the parts with `sep` between neighbours. The
    first part is a prefix of the result, followed by a separator if another
    part comes.
   */
  function Join(parts: seq<string>, sep: char): (s: string)
    ensures |parts| == 0 ==> s == ""
    ensures |parts| > 0 ==> parts[0] <= s
    ensures |parts| > 1 ==> parts[0] + [sep] <= s
  {
    if |parts| == 0 then ""
    else if |parts| == 1 then parts[0]
    else parts[0] + [sep] + Join(parts[1..], sep)
  }

  /**
    `strings.Split(s, sep)`: the maximal separator-free pieces of `s`.
    There is always one more piece than there are separators, so the empty
    string splits into a single empty piece.
   */
  function Split(s: string, sep: char): (parts: seq<string>)
    ensures |parts| == multiset(s)[sep] + 1
    ensures forall i :: 0 <= i < |parts| ==> sep !in parts[i]
    decreases |s|
  {
    if |s| == 0 then [""]
    else
      var rest := Split(s[1..], sep);
      assert s == [s[0]] + s[1..];
      if s[0] == sep then [""] + rest
      else [[s[0]] + rest[0]] + rest[1..]
  }

  /** Prepending a character to the first piece prepends it to the join. */
  lemma JoinPrependFirst(c: char, parts: seq<string>, sep: char)
    requires |parts| > 0
    ensures Join([[c] + parts[0]] + parts[1..], sep) == [c] + Join(parts, sep)
  {
    var moved := [[c] + parts[0]] + parts[1..];
    assert moved[1..] == parts[1..];
  }

  /** One step of a split: how the pieces of `s` arise from those of its tail. */
  lemma SplitStep(s: string, sep: char)
    requires |s| > 0
    ensures s[0] == sep ==> Split(s, sep) == [""] + Split(s[1..], sep)
    ensures s[0] != sep ==>
      Split(s, sep) == [[s[0]] + Split(s[1..], sep)[0]] + Split(s[1..], sep)[1..]
  {
  }

  /** A split that starts at a separator: an empty first piece, then the tail's pieces. */
  lemma JoinAfterLeadingSeparator(rest: seq<string>, sep: char)
    requires |rest| > 0
    ensures Join([""] + rest, sep) == [sep] + Join(rest, sep)
  {
    assert ([""] + rest)[1..] == rest;
  }

  /** Joining the pieces of a split gives back the original string. */
  lemma {:induction false} JoinSplit(s: string, sep: char)
    ensures Join(Split(s, sep), sep) == s
    decreases |s|
  {
    if |s| > 0 {
      var tail := s[1..];
      var rest := Split(tail, sep);
      JoinSplit(tail, sep);
      SplitStep(s, sep);
      if s[0] == sep {
        JoinAfterLeadingSeparator(rest, sep);
      } else {
        JoinPrependFirst(s[0], rest, sep);
      }
      assert [s[0]] + tail == s;
    }
  }

  /** A string without the separator is one piece. */
  lemma {:induction false} SplitNoSeparator(a: string, sep: char)
    requires sep !in a
    ensures Split(a, sep) == [a]
    decreases |a|
  {
    if |a| > 0 {
      SplitNoSeparator(a[1..], sep);
      assert [a[0]] + a[1..] == a;
    }
  }

  /** A separator-free prefix followed by the separator splits off as one piece. */
  lemma {:induction false} SplitAtFirstSeparator(a: string, sep: char, b: string)
    requires sep !in a
    ensures Split(a + [sep] + b, sep) == [a] + Split(b, sep)
    decreases |a|
  {
    var s := a + [sep] + b;
    if |a| == 0 {
      assert s[1..] == b;
    } else {
      assert s[1..] == a[1..] + [sep] + b;
      SplitAtFirstSeparator(a[1..], sep, b);
      assert [a[0]] + a[1..] == a;
    }
  }

  /** Splitting a join of separator-free pieces gives back the pieces. */
  lemma {:induction false} SplitJoin(parts: seq<string>, sep: char)
    requires |parts| > 0
    requires forall i :: 0 <= i < |parts| ==> sep !in parts[i]
    ensures Split(Join(parts, sep), sep) == parts
    decreases |parts|
  {
    if |parts| == 1 {
      SplitNoSeparator(parts[0], sep);
    } else {
      SplitAtFirstSeparator(parts[0], sep, Join(parts[1..], sep));
      SplitJoin(parts[1..], sep);
      assert [parts[0]] + parts[1..] == parts;
    }
  }
}

=== FILE: names.dfy ===
/**
  The `ValidateFunc` of the `keyspace_name` and `table_name` attributes:
  `StringLenBetween(1, 48)` together with the anchored pattern
  `^[a-zA-Z0-9][a-zA-Z0-9_]{1,47}$`.
 */
module NameValidation {

  /** One range `lo-hi` of a bracketed character class. */
  datatype CharRange = CharRange(lo: char, hi: char)

  /** A bracketed character class, written as its list of ranges. */
  type CharClass = seq<CharRange>

  predicate InClass(c: char, cls: CharClass)
    decreases |cls|
  {
    |cls| > 0 && ((cls[0].lo <= c <= cls[0].hi) || InClass(c, cls[1..]))
  }

  /** `[a-zA-Z0-9]` */
  const HeadClass: CharClass := [CharRange('a', 'z'), CharRange('A', 'Z'), CharRange('0', '9')]

  /** `[a-zA-Z0-9_]` */
  const TailClass: CharClass :=
    [CharRange('a', 'z'), CharRange('A', 'Z'), CharRange('0', '9'), CharRange('_', '_')]

  /** An anchored pattern `^H T{min,max}$`: one `head` character, then a bounded run of `tail`. */
  datatype AnchoredPattern = AnchoredPattern(head: CharClass, tail: CharClass, minTail: nat, maxTail: nat)

  const NamePattern := AnchoredPattern(HeadClass, TailClass, 1, 47)

  /** `cls{lo,hi}` matched against all of `s`. */
  predicate RepeatMatches(s: string, cls: CharClass, lo: nat, hi: nat)
    decreases |s|
  {
    if |s| == 0 then lo == 0
    else 0 < hi && InClass(s[0], cls) && RepeatMatches(s[1..], cls, if lo == 0 then 0 else lo - 1, hi - 1)
  }

  /** `regexp.MatchString` of an anchored pattern: the whole string must match. */
  predicate MatchesAnchored(s: string, p: AnchoredPattern)
  {
    |s| > 0 && InClass(s[0], p.head) && RepeatMatches(s[1..], p.tail, p.minTail, p.maxTail)
  }

  /** `validation.StringLenBetween(min, max)` */
  predicate StringLenBetween(s: string, min: nat, max: nat)
  {
    min <= |s| <= max
  }

  /**
    `validation.All(StringLenBetween(1, 48), StringMatch(NamePattern, ...))`.
    An accepted name has at least two characters, more than the length check asks.
   */
  function ValidName(s: string): (ok: bool)
    ensures ok ==> StringLenBetween(s, 2, 48)
  {
    StringLenBetween(s, 1, 48) && MatchesAnchored(s, NamePattern)
  }

  // Reference definitions, stated without the pattern machinery.

  predicate IsAsciiAlnum(c: char)
  {
    ('a' <= c <= 'z') || ('A' <= c <= 'Z') || ('0' <= c <= '9')
  }

  predicate IsNameChar(c: char)
  {
    IsAsciiAlnum(c) || c == '_'
  }

  lemma HeadClassIsAlnum(c: char)
    ensures InClass(c, HeadClass) <==> IsAsciiAlnum(c)
  {
    assert HeadClass[1..] == [CharRange('A', 'Z'), CharRange('0', '9')];
    assert HeadClass[1..][1..] == [CharRange('0', '9')];
  }

  lemma TailClassIsNameChar(c: char)
    ensures InClass(c, TailClass) <==> IsNameChar(c)
  {
    var t := TailClass;
    assert t[1..] == [CharRange('A', 'Z'), CharRange('0', '9'), CharRange('_', '_')];
    assert t[1..][1..] == [CharRange('0', '9'), CharRange('_', '_')];
    assert t[1..][1..][1..] == [CharRange('_', '_')];
  }

  /** A bounded repetition matches exactly the strings of an allowed length made of class members. */
  lemma {:induction false} RepeatMatchesIff(s: string, cls: CharClass, lo: nat, hi: nat)
    ensures RepeatMatches(s, cls, lo, hi) <==>
      (lo <= |s| <= hi && forall i :: 0 <= i < |s| ==> InClass(s[i], cls))
    decreases |s|
  {
    if |s| > 0 && hi > 0 {
      RepeatMatchesIff(s[1..], cls, if lo == 0 then 0 else lo - 1, hi - 1);
      if (lo <= |s| <= hi && forall i :: 0 <= i < |s| ==> InClass(s[i], cls)) {
        forall i | 0 <= i < |s| - 1
          ensures InClass(s[1..][i], cls)
        {
          assert s[1..][i] == s[i + 1];
        }
      }
      if RepeatMatches(s, cls, lo, hi) {
        forall i | 0 <= i < |s|
          ensures InClass(s[i], cls)
        {
          if i > 0 {
            assert s[i] == s[1..][i - 1];
          }
        }
      }
    }
  }

  /** The pattern `^[a-zA-Z0-9][a-zA-Z0-9_]{min,47}$` matches exactly these strings. */
  lemma NamePatternCharacterization(s: string, minTail: nat)
    ensures MatchesAnchored(s, AnchoredPattern(HeadClass, TailClass, minTail, 47)) <==>
      && 1 + minTail <= |s| <= 48
      && IsAsciiAlnum(s[0])
      && forall i :: 1 <= i < |s| ==> IsNameChar(s[i])
  {
    if |s| > 0 {
      HeadClassIsAlnum(s[0]);
      RepeatMatchesIff(s[1..], TailClass, minTail, 47);
      forall i | 1 <= i < |s|
        ensures InClass(s[i], TailClass) <==> IsNameChar(s[i])
      {
        TailClassIsNameChar(s[i]);
      }
      if MatchesAnchored(s, AnchoredPattern(HeadClass, TailClass, minTail, 47)) {
        forall i | 1 <= i < |s|
          ensures IsNameChar(s[i])
        {
          assert s[i] == s[1..][i - 1];
        }
      }
      if 1 + minTail <= |s| <= 48 && IsAsciiAlnum(s[0]) && forall i :: 1 <= i < |s| ==> IsNameChar(s[i]) {
        forall i | 0 <= i < |s| - 1
          ensures InClass(s[1..][i], TailClass)
        {
          assert s[1..][i] == s[i + 1];
        }
      }
    }
  }

  /**
    The validator as written accepts exactly the names of 2 to 48 characters
    that start with an ASCII letter or digit and continue with letters,
    digits or `_`: the pattern's `{1,47}` raises the length check's lower
    bound from 1 to 2.
   */
  lemma ValidNameCharacterization(s: string)
    ensures ValidName(s) <==>
      && 2 <= |s| <= 48
      && IsAsciiAlnum(s[0])
      && forall i :: 1 <= i < |s| ==> IsNameChar(s[i])
  {
    NamePatternCharacterization(s, 1);
  }

  /** The evidently intended pattern `^[a-zA-Z0-9][a-zA-Z0-9_]{0,47}$`, matching the length check. */
  const IntendedNamePattern := AnchoredPattern(HeadClass, TailClass, 0, 47)

  predicate ValidNameIntended(s: string)
  {
    StringLenBetween(s, 1, 48) && MatchesAnchored(s, IntendedNamePattern)
  }

  /**
    The intended validator accepts exactly the names of 1 to 48 characters of
    the same alphabet, and its pattern alone already implies the length check.
   */
  lemma ValidNameIntendedCharacterization(s: string)
    ensures ValidNameIntended(s) <==>
      && 1 <= |s| <= 48
      && IsAsciiAlnum(s[0])
      && forall i :: 1 <= i < |s| ==> IsNameChar(s[i])
    ensures MatchesAnchored(s, IntendedNamePattern) ==> StringLenBetween(s, 1, 48)
  {
    NamePatternCharacterization(s, 0);
  }

  /** Every name the validator as written accepts, the intended one accepts too. */
  lemma ValidNameIsIntended(s: string)
    requires ValidName(s)
    ensures ValidNameIntended(s)
  {
    ValidNameCharacterization(s);
    ValidNameIntendedCharacterization(s);
  }

  /**
    A one-character name passes the length check and the intended pattern,
    but the pattern as written turns it away.
   */
  lemma SingleCharacterRejected(c: char)
    requires IsAsciiAlnum(c)
    ensures StringLenBetween([c], 1, 48)
    ensures !ValidName([c])
    ensures ValidNameIntended([c])
  {
    ValidNameCharacterization([c]);
    ValidNameIntendedCharacterization([c]);
  }

  /** A name the intended validator accepts is non-empty and never contains the resource-ID separator. */
  lemma IntendedNameHasNoSlash(s: string)
    requires ValidNameIntended(s)
    ensures s != ""
    ensures '/' !in s
  {
    ValidNameIntendedCharacterization(s);
  }

  /** The same holds for every name the validator as written accepts. */
  lemma ValidNameHasNoSlash(s: string)
    requires ValidName(s)
    ensures s != ""
    ensures '/' !in s
  {
    ValidNameIsIntended(s);
    IntendedNameHasNoSlash(s);
  }
}

=== FILE: resource_id.dfy ===
/**
  The table's Terraform resource ID: `KEYSPACE-NAME/TABLE-NAME`, built by
  `TableCreateResourceID` and taken apart by `TableParseResourceID`.
 */
module ResourceId {
  import opened Wrappers
  import opened GoStrings
  import NameValidation

  const TableIdSeparator: char := '/'

  /** The error `TableParseResourceID` returns; it carries the rejected ID. */
  datatype IdError = UnexpectedFormat(id: string)

  /** The three results `(keyspaceName, tableName, err)` of `TableParseResourceID`. */
  datatype ParsedId = ParsedId(keyspaceName: string, tableName: string, err: Option<IdError>)

  /** An ID of the expected shape: exactly one separator, neither at the start nor at the end. */
  predicate WellFormedId(id: string)
  {
    && multiset(id)[TableIdSeparator] == 1
    && 0 < |id|
    && id[0] != TableIdSeparator
    && id[|id| - 1] != TableIdSeparator
  }

  /** `strings.Join([]string{keyspaceName, tableName}, "/")` */
  function TableCreateResourceID(keyspaceName: string, tableName: string): (id: string)
    ensures |id| == |keyspaceName| + 1 + |tableName|
    ensures id[..|keyspaceName|] == keyspaceName
    ensures id[|keyspaceName|] == TableIdSeparator
    ensures id[|keyspaceName| + 1..] == tableName
  {
    assert [keyspaceName, tableName][1..] == [tableName];
    assert Join([tableName], TableIdSeparator) == tableName;
    Join([keyspaceName, tableName], TableIdSeparator)
  }

  /**
    `strings.Split(id, "/")`, accepted only when it yields exactly two
    non-empty parts; otherwise both names are empty and the error names the ID.
   */
  function TableParseResourceID(id: string): (r: ParsedId)
    ensures r.err.None? <==> WellFormedId(id)
    ensures r.err.None? ==>
      && r.keyspaceName != "" && TableIdSeparator !in r.keyspaceName
      && r.tableName != "" && TableIdSeparator !in r.tableName
    ensures r.err.Some? ==> r == ParsedId("", "", Some(UnexpectedFormat(id)))
  {
    var parts := Split(id, TableIdSeparator);
    JoinSplit(id, TableIdSeparator);
    if |parts| == 2 && parts[0] != "" && parts[1] != "" then
      assert id == parts[0] + [TableIdSeparator] + parts[1];
      ParsedId(parts[0], parts[1], None)
    else
      ParsedId("", "", Some(UnexpectedFormat(id)))
  }

  /** Parsing a created ID gives back both names, whenever neither is empty or holds the separator. */
  lemma ParseCreateRoundTrip(keyspaceName: string, tableName: string)
    requires keyspaceName != "" && TableIdSeparator !in keyspaceName
    requires tableName != "" && TableIdSeparator !in tableName
    ensures TableParseResourceID(TableCreateResourceID(keyspaceName, tableName))
         == ParsedId(keyspaceName, tableName, None)
  {
    SplitJoin([keyspaceName, tableName], TableIdSeparator);
  }

  /** Every pair of names the intended validator accepts survives the round trip. */
  lemma IntendedNamesRoundTrip(keyspaceName: string, tableName: string)
    requires NameValidation.ValidNameIntended(keyspaceName)
    requires NameValidation.ValidNameIntended(tableName)
    ensures TableParseResourceID(TableCreateResourceID(keyspaceName, tableName))
         == ParsedId(keyspaceName, tableName, None)
  {
    NameValidation.IntendedNameHasNoSlash(keyspaceName);
    NameValidation.IntendedNameHasNoSlash(tableName);
    ParseCreateRoundTrip(keyspaceName, tableName);
  }

  /** Every pair of names the attribute validator as written accepts survives the round trip. */
  lemma ValidNamesRoundTrip(keyspaceName: string, tableName: string)
    requires NameValidation.ValidName(keyspaceName)
    requires NameValidation.ValidName(tableName)
    ensures TableParseResourceID(TableCreateResourceID(keyspaceName, tableName))
         == ParsedId(keyspaceName, tableName, None)
  {
    NameValidation.ValidNameIsIntended(keyspaceName);
    NameValidation.ValidNameIsIntended(tableName);
    IntendedNamesRoundTrip(keyspaceName, tableName);
  }

  /** An ID that parses is exactly the ID its two names create. */
  lemma CreateParseRoundTrip(id: string)
    requires TableParseResourceID(id).err.None?
    ensures TableCreateResourceID(TableParseResourceID(id).keyspaceName, TableParseResourceID(id).tableName) == id
  {
    JoinSplit(id, TableIdSeparator);
  }

  /** The shapes the parser must turn away. */
  lemma ParseRejects(id: string)
    ensures id == "" ==> TableParseResourceID(id).err.Some?
    ensures TableIdSeparator !in id ==> TableParseResourceID(id).err.Some?
    ensures multiset(id)[TableIdSeparator] >= 2 ==> TableParseResourceID(id).err.Some?
    ensures 0 < |id| && (id[0] == TableIdSeparator || id[|id| - 1] == TableIdSeparator) ==>
      TableParseResourceID(id) == ParsedId("", "", Some(UnexpectedFormat(id)))
  {
  }

  /** `""`, `"foo"`, `"/b"` and `"a/"` are malformed. */
  lemma ParseRejectsShortExamples()
    ensures TableParseResourceID("").err.Some?
    ensures TableParseResourceID("foo").err.Some?
    ensures TableParseResourceID("/b").err.Some?
    ensures TableParseResourceID("a/").err.Some?
  {
    ParseRejects("/b");
    ParseRejects("a/");
  }

  /** `"a/b/c"` has one separator too many. */
  lemma ParseRejectsTwoSeparators()
    ensures TableParseResourceID("a/b/c") == ParsedId("", "", Some(UnexpectedFormat("a/b/c")))
  {
    var id := "a/b/c";
    assert id[1] == TableIdSeparator && id[3] == TableIdSeparator;
    assert !WellFormedId(id) by {
      assert multiset(id)[TableIdSeparator] >= 2 by {
        assert multiset{TableIdSeparator, TableIdSeparator} <= multiset(id);
      }
    }
  }

  /** `"a/b"` names keyspace `a` and table `b`. */
  lemma ParseAcceptsExample()
    ensures TableParseResourceID("a/b") == ParsedId("a", "b", None)
  {
    ParseCreateRoundTrip("a", "b");
    assert TableCreateResourceID("a", "b") == "a/b";
  }
}

=== FILE: table_resource.dfy ===
/**
  `resourceTableCreate`, `resourceTableRead`, `resourceTableUpdate` and
  `resourceTableDelete` as pure functions. The answers of the Keyspaces API
  (and the outcome of each status wait) are given up front in a `Remote`
  record; each operation returns the resource data it leaves behind, the
  remote calls it made in order, and the diagnostic it returns, if any.
 */
module TableResource {
  import opened Wrappers
  import opened TableStatus
  import opened ResourceId
  import NameValidation

  /** The resource data the operations read and write (`d`). */
  datatype ResourceData = ResourceData(
    id: string,
    arn: string,
    keyspaceName: string,
    tableName: string,
    tagsAll: map<string, string>)

  /** `keyspaces.CreateTableInput`; `tags` is left nil when absent. */
  datatype CreateTableInput = CreateTableInput(
    keyspaceName: string,
    tableName: string,
    tags: Option<map<string, string>>)

  /** A failed `WaitForStateContext` (timeout, unexpected state, probe error). */
  datatype WaitError = WaitError(message: string)

  /** The remote calls an operation makes. */
  datatype Call =
    | CreateTable(input: CreateTableInput)
    | UpdateTable(keyspaceName: string, tableName: string)
    | DeleteTable(keyspaceName: string, tableName: string)
    | WaitFor(keyspaceName: string, tableName: string, config: WaitConfig)
    | FindTable(keyspaceName: string, tableName: string)
    | ListTags(arn: string)
    | UpdateTags(arn: string, oldTags: map<string, string>, newTags: map<string, string>)

  /**
    How the API answers each call: `None` is success. Each modelled call is
    made at most once per operation, so one answer per kind suffices: the
    lookups a waiter repeats while polling are folded into `wait`, and
    `find` answers only the lookup of the read-back.
    `listTags` is the tag list after the ignore filters.
   */
  datatype Remote = Remote(
    createTable: Option<ApiError>,
    updateTable: Option<ApiError>,
    deleteTable: Option<ApiError>,
    wait: Option<WaitError>,
    find: Lookup,
    listTags: Result<map<string, string>, ApiError>,
    updateTags: Option<ApiError>)

  /** The diagnostics the operations return, each naming the resource ID. */
  datatype Diag =
    | MalformedId(err: IdError)
    | CreatingFailed(id: string, apiErr: ApiError)
    | WaitingCreateFailed(id: string, waitErr: WaitError)
    | ReadingFailed(id: string, lookup: Lookup)
    | ListingTagsFailed(id: string, apiErr: ApiError)
    | UpdatingFailed(id: string, apiErr: ApiError)
    | WaitingUpdateFailed(id: string, waitErr: WaitError)
    | UpdatingTagsFailed(id: string, apiErr: ApiError)
    | DeletingFailed(id: string, apiErr: ApiError)
    | WaitingDeleteFailed(id: string, waitErr: WaitError)

  /** The resource data after an operation, the calls made, and the diagnostic. */
  datatype Outcome = Outcome(data: ResourceData, calls: seq<Call>, diag: Option<Diag>)

  /** `tfawserr.ErrCodeEquals(err, keyspaces.ErrCodeResourceNotFoundException)` */
  function IsResourceNotFound(err: Option<ApiError>): (notFound: bool)
    ensures err.None? ==> !notFound
    ensures notFound ==> err.value.code == ErrCodeResourceNotFoundException
    ensures err.Some? && err.value.code == ErrCodeResourceNotFoundException ==> notFound
  {
    err.Some? && err.value.code == ErrCodeResourceNotFoundException
  }

  /** The create request; the API rejects an explicitly empty tag set, so it is sent only when non-empty. */
  function NewCreateTableInput(keyspaceName: string, tableName: string, tags: map<string, string>): (input: CreateTableInput)
    ensures input.keyspaceName == keyspaceName && input.tableName == tableName
    ensures input.tags.Some? <==> |tags| > 0
    ensures input.tags.Some? ==> input.tags.value == tags
  {
    if |tags| > 0 then CreateTableInput(keyspaceName, tableName, Some(tags))
    else CreateTableInput(keyspaceName, tableName, None)
  }

  /**
    `resourceTableRead`. A table that has gone away is dropped from state
    (empty ID, no diagnostic) unless the resource is new, in which case its
    absence is an error.
   */
  function Read(d: ResourceData, isNewResource: bool, remote: Remote): (o: Outcome)
    ensures forall c :: c in o.calls ==> c.FindTable? || c.ListTags?
    ensures !WellFormedId(d.id) ==> o == Outcome(d, [], Some(MalformedId(UnexpectedFormat(d.id))))
    ensures WellFormedId(d.id) ==>
      && |o.calls| >= 1
      && o.calls[0] == FindTable(TableParseResourceID(d.id).keyspaceName, TableParseResourceID(d.id).tableName)
    ensures o.data.id != d.id <==> WellFormedId(d.id) && !isNewResource && remote.find.NotFound?
    ensures o.data.id != d.id ==> o.data.id == "" && o.diag.None? && |o.calls| == 1
    ensures WellFormedId(d.id) && (remote.find.LookupFailed? || (isNewResource && remote.find.NotFound?)) ==>
      o.diag == Some(ReadingFailed(d.id, remote.find))
    ensures WellFormedId(d.id) && remote.find.Found? && remote.listTags.Failure? ==>
      o.diag == Some(ListingTagsFailed(d.id, remote.listTags.error))
    ensures WellFormedId(d.id) && !remote.find.Found? ==> |o.calls| == 1
    ensures WellFormedId(d.id) && !remote.find.Found? && o.data.id == d.id ==> o.data == d
    ensures WellFormedId(d.id) && remote.find.Found? ==>
      && o.calls[1..] == [ListTags(StringValue(remote.find.table.resourceArn))]
      && o.data.(tagsAll := d.tagsAll) == d.(arn := StringValue(remote.find.table.resourceArn),
                                              keyspaceName := StringValue(remote.find.table.keyspaceName),
                                              tableName := StringValue(remote.find.table.tableName))
    ensures o.diag.None? && o.data.id != "" ==>
      && remote.find.Found?
      && remote.listTags.Success?
      && o.data.arn == StringValue(remote.find.table.resourceArn)
      && o.data.keyspaceName == StringValue(remote.find.table.keyspaceName)
      && o.data.tableName == StringValue(remote.find.table.tableName)
      && o.data.tagsAll == remote.listTags.value
      && o.calls[1..] == [ListTags(o.data.arn)]
  {
    var parsed := TableParseResourceID(d.id);
    if parsed.err.Some? then
      Outcome(d, [], Some(MalformedId(parsed.err.value)))
    else
      var find := FindTable(parsed.keyspaceName, parsed.tableName);
      if !isNewResource && remote.find.NotFound? then
        Outcome(d.(id := ""), [find], None)
      else if !remote.find.Found? then
        Outcome(d, [find], Some(ReadingFailed(d.id, remote.find)))
      else
        var t := remote.find.table;
        var d1 := d.(arn := StringValue(t.resourceArn),
                     keyspaceName := StringValue(t.keyspaceName),
                     tableName := StringValue(t.tableName));
        var calls := [find, ListTags(d1.arn)];
        match remote.listTags
        case Failure(e) => Outcome(d1, calls, Some(ListingTagsFailed(d.id, e)))
        case Success(tags) => Outcome(d1.(tagsAll := tags), calls, None)
  }

  /**
    `resourceTableCreate`. `tags` is the configured tag map after default
    tags are merged in and AWS-reserved tags are dropped. The ID is set only
    once the create request is accepted; then the create wait runs and the
    table is read back as a new resource.
   */
  function Create(d: ResourceData, tags: map<string, string>, remote: Remote): (o: Outcome)
    ensures |o.calls| >= 1 && o.calls[0].CreateTable?
    ensures o.calls[0].input.keyspaceName == d.keyspaceName
    ensures o.calls[0].input.tableName == d.tableName
    ensures o.calls[0].input.tags.Some? <==> |tags| > 0
    ensures o.calls[0].input.tags.Some? ==> o.calls[0].input.tags.value == tags
    ensures remote.createTable.Some? ==>
      o == Outcome(d, o.calls[..1], Some(CreatingFailed(TableCreateResourceID(d.keyspaceName, d.tableName), remote.createTable.value)))
    ensures remote.createTable.None? ==>
      && o.data.id == TableCreateResourceID(d.keyspaceName, d.tableName)
      && |o.calls| >= 2
      && o.calls[1] == WaitFor(d.keyspaceName, d.tableName, WaitConf(CreateWait))
    ensures remote.createTable.None? && remote.wait.Some? ==>
      o == Outcome(d.(id := TableCreateResourceID(d.keyspaceName, d.tableName)), o.calls[..2],
                   Some(WaitingCreateFailed(TableCreateResourceID(d.keyspaceName, d.tableName), remote.wait.value)))
    ensures remote.createTable.None? && remote.wait.None? ==>
      var r := Read(d.(id := TableCreateResourceID(d.keyspaceName, d.tableName)), true, remote);
      o.data == r.data && o.calls[2..] == r.calls && o.diag == r.diag
  {
    var id := TableCreateResourceID(d.keyspaceName, d.tableName);
    var create := CreateTable(NewCreateTableInput(d.keyspaceName, d.tableName, tags));
    if remote.createTable.Some? then
      Outcome(d, [create], Some(CreatingFailed(id, remote.createTable.value)))
    else
      var d1 := d.(id := id);
      var wait := WaitFor(d.keyspaceName, d.tableName, WaitConf(CreateWait));
      if remote.wait.Some? then
        Outcome(d1, [create, wait], Some(WaitingCreateFailed(id, remote.wait.value)))
      else
        var r := Read(d1, true, remote);
        Outcome(r.data, [create, wait] + r.calls, r.diag)
  }

  /** The field update either did not run or was accepted and reached ACTIVE again. */
  predicate FieldUpdateSucceeded(fieldsChanged: bool, remote: Remote)
  {
    !fieldsChanged || (remote.updateTable.None? && remote.wait.None?)
  }

  /**
    `resourceTableUpdate`. `fieldsChanged` is `HasChangesExcept("tags",
    "tags_all")`; the new `tags_all` is `d.tagsAll` and `oldTagsAll` the one
    it replaces. The field update (with its wait) and the tag update are
    independent; each runs only when its part changed, and the result is
    read back.
   */
  function Update(d: ResourceData, fieldsChanged: bool, oldTagsAll: map<string, string>, remote: Remote): (o: Outcome)
    ensures !WellFormedId(d.id) ==> o == Outcome(d, [], Some(MalformedId(UnexpectedFormat(d.id))))
    ensures !fieldsChanged ==> forall c :: c in o.calls ==> !c.UpdateTable? && !c.WaitFor?
    ensures oldTagsAll == d.tagsAll ==> forall c :: c in o.calls ==> !c.UpdateTags?
    ensures forall c :: c in o.calls && c.WaitFor? ==> c.config == WaitConf(UpdateWait)
    ensures fieldsChanged && TableParseResourceID(d.id).err.None? ==>
      |o.calls| >= 1 && o.calls[0] == UpdateTable(TableParseResourceID(d.id).keyspaceName, TableParseResourceID(d.id).tableName)
    ensures fieldsChanged && TableParseResourceID(d.id).err.None? && remote.updateTable.Some? ==>
      |o.calls| == 1 && o.diag == Some(UpdatingFailed(d.id, remote.updateTable.value))
    ensures fieldsChanged && TableParseResourceID(d.id).err.None? && remote.updateTable.None? && remote.wait.Some? ==>
      && |o.calls| == 2
      && o.calls[1] == WaitFor(TableParseResourceID(d.id).keyspaceName, TableParseResourceID(d.id).tableName, WaitConf(UpdateWait))
      && o.diag == Some(WaitingUpdateFailed(d.id, remote.wait.value))
    ensures (TableParseResourceID(d.id).err.None? && FieldUpdateSucceeded(fieldsChanged, remote) && oldTagsAll != d.tagsAll
             && remote.updateTags.Some?) ==>
      var p := TableParseResourceID(d.id);
      && o.diag == Some(UpdatingTagsFailed(d.id, remote.updateTags.value))
      && o.calls ==
         (if fieldsChanged
          then [UpdateTable(p.keyspaceName, p.tableName), WaitFor(p.keyspaceName, p.tableName, WaitConf(UpdateWait))]
          else [])
         + [UpdateTags(d.arn, oldTagsAll, d.tagsAll)]
    ensures (TableParseResourceID(d.id).err.None? && FieldUpdateSucceeded(fieldsChanged, remote)
             && (oldTagsAll == d.tagsAll || remote.updateTags.None?)) ==>
      var p := TableParseResourceID(d.id);
      var r := Read(d, false, remote);
      && o.data == r.data && o.diag == r.diag
      && o.calls ==
         (if fieldsChanged
          then [UpdateTable(p.keyspaceName, p.tableName), WaitFor(p.keyspaceName, p.tableName, WaitConf(UpdateWait))]
          else [])
         + ((if oldTagsAll != d.tagsAll then [UpdateTags(d.arn, oldTagsAll, d.tagsAll)] else []) + r.calls)
  {
    var parsed := TableParseResourceID(d.id);
    if parsed.err.Some? then
      Outcome(d, [], Some(MalformedId(parsed.err.value)))
    else
      assert WellFormedId(d.id);
      UpdateParsed(d, parsed.keyspaceName, parsed.tableName, fieldsChanged, oldTagsAll, remote)
  }

  /** `resourceTableUpdate` once the ID has been parsed into `keyspaceName` and `tableName`. */
  function UpdateParsed(d: ResourceData, keyspaceName: string, tableName: string, fieldsChanged: bool,
                        oldTagsAll: map<string, string>, remote: Remote): (o: Outcome)
    ensures !fieldsChanged ==> forall c :: c in o.calls ==> !c.UpdateTable? && !c.WaitFor?
    ensures oldTagsAll == d.tagsAll ==> forall c :: c in o.calls ==> !c.UpdateTags?
    ensures forall c :: c in o.calls && c.WaitFor? ==> c.config == WaitConf(UpdateWait)
    ensures fieldsChanged ==> |o.calls| >= 1 && o.calls[0] == UpdateTable(keyspaceName, tableName)
    ensures fieldsChanged && remote.updateTable.Some? ==>
      o == Outcome(d, o.calls[..1], Some(UpdatingFailed(d.id, remote.updateTable.value)))
    ensures fieldsChanged && remote.updateTable.None? && remote.wait.Some? ==>
      o == Outcome(d, [UpdateTable(keyspaceName, tableName), WaitFor(keyspaceName, tableName, WaitConf(UpdateWait))],
                   Some(WaitingUpdateFailed(d.id, remote.wait.value)))
    ensures FieldUpdateSucceeded(fieldsChanged, remote) ==>
      var rest := SyncTagsThenRead(d, oldTagsAll, remote);
      && o.data == rest.data && o.diag == rest.diag
      && o.calls ==
         (if fieldsChanged
          then [UpdateTable(keyspaceName, tableName), WaitFor(keyspaceName, tableName, WaitConf(UpdateWait))]
          else [])
         + rest.calls
  {
    var update := UpdateTable(keyspaceName, tableName);
    var wait := WaitFor(keyspaceName, tableName, WaitConf(UpdateWait));
    if fieldsChanged && remote.updateTable.Some? then
      Outcome(d, [update], Some(UpdatingFailed(d.id, remote.updateTable.value)))
    else if fieldsChanged && remote.wait.Some? then
      Outcome(d, [update, wait], Some(WaitingUpdateFailed(d.id, remote.wait.value)))
    else
      var fieldCalls := if fieldsChanged then [update, wait] else [];
      var rest := SyncTagsThenRead(d, oldTagsAll, remote);
      assert forall c :: c in fieldCalls + rest.calls ==> c in fieldCalls || c in rest.calls;
      Outcome(rest.data, fieldCalls + rest.calls, rest.diag)
  }

  /**
    The part of `resourceTableUpdate` after the field update: the tag
    update when `tags_all` changed, then, unless it failed, the read-back.
   */
  function SyncTagsThenRead(d: ResourceData, oldTagsAll: map<string, string>, remote: Remote): (o: Outcome)
    ensures forall c :: c in o.calls ==> !c.UpdateTable? && !c.WaitFor?
    ensures oldTagsAll == d.tagsAll ==> forall c :: c in o.calls ==> !c.UpdateTags?
    ensures oldTagsAll != d.tagsAll ==> |o.calls| >= 1 && o.calls[0] == UpdateTags(d.arn, oldTagsAll, d.tagsAll)
    ensures oldTagsAll != d.tagsAll && remote.updateTags.Some? ==>
      o == Outcome(d, o.calls[..1], Some(UpdatingTagsFailed(d.id, remote.updateTags.value)))
    ensures (oldTagsAll == d.tagsAll || remote.updateTags.None?) ==>
      var r := Read(d, false, remote);
      && o.data == r.data && o.diag == r.diag
      && o.calls == (if oldTagsAll != d.tagsAll then [UpdateTags(d.arn, oldTagsAll, d.tagsAll)] else []) + r.calls
  {
    var tagCall := UpdateTags(d.arn, oldTagsAll, d.tagsAll);
    if oldTagsAll != d.tagsAll && remote.updateTags.Some? then
      Outcome(d, [tagCall], Some(UpdatingTagsFailed(d.id, remote.updateTags.value)))
    else
      var tagCalls := if oldTagsAll != d.tagsAll then [tagCall] else [];
      var r := Read(d, false, remote);
      assert forall c :: c in tagCalls + r.calls ==> c in tagCalls || c in r.calls;
      Outcome(r.data, tagCalls + r.calls, r.diag)
  }

  /**
    `resourceTableDelete`. A delete the API answers with
    `ResourceNotFoundException` has nothing left to do and succeeds at
    once; any other error is reported; only an accepted delete waits for
    the table to disappear.
   */
  function Delete(d: ResourceData, remote: Remote): (o: Outcome)
    ensures o.data == d
    ensures !WellFormedId(d.id) ==> o == Outcome(d, [], Some(MalformedId(UnexpectedFormat(d.id))))
    ensures WellFormedId(d.id) ==>
      && |o.calls| >= 1
      && o.calls[0] == DeleteTable(TableParseResourceID(d.id).keyspaceName, TableParseResourceID(d.id).tableName)
    ensures WellFormedId(d.id) && IsResourceNotFound(remote.deleteTable) ==> |o.calls| == 1 && o.diag.None?
    ensures WellFormedId(d.id) && remote.deleteTable.Some? && !IsResourceNotFound(remote.deleteTable) ==>
      |o.calls| == 1 && o.diag == Some(DeletingFailed(d.id, remote.deleteTable.value))
    ensures (exists c :: c in o.calls && c.WaitFor?) <==> WellFormedId(d.id) && remote.deleteTable.None?
    ensures forall c :: c in o.calls && c.WaitFor? ==> c.config == WaitConf(DeleteWait)
    ensures WellFormedId(d.id) && remote.deleteTable.None? ==>
      var p := TableParseResourceID(d.id);
      && o.calls == [DeleteTable(p.keyspaceName, p.tableName), WaitFor(p.keyspaceName, p.tableName, WaitConf(DeleteWait))]
      && o.diag == (if remote.wait.Some? then Some(WaitingDeleteFailed(d.id, remote.wait.value)) else None)
    ensures o.diag.None? <==>
      WellFormedId(d.id) && (IsResourceNotFound(remote.deleteTable) || (remote.deleteTable.None? && remote.wait.None?))
  {
    var parsed := TableParseResourceID(d.id);
    if parsed.err.Some? then
      Outcome(d, [], Some(MalformedId(parsed.err.value)))
    else
      var k, t := parsed.keyspaceName, parsed.tableName;
      var delete := DeleteTable(k, t);
      if IsResourceNotFound(remote.deleteTable) then
        Outcome(d, [delete], None)
      else if remote.deleteTable.Some? then
        Outcome(d, [delete], Some(DeletingFailed(d.id, remote.deleteTable.value)))
      else
        var wait := WaitFor(k, t, WaitConf(DeleteWait));
        assert [delete, wait][1] == wait;
        if remote.wait.Some? then
          Outcome(d, [delete, wait], Some(WaitingDeleteFailed(d.id, remote.wait.value)))
        else
          Outcome(d, [delete, wait], None)
  }

  /** Create with names of the intended form where every call succeeds: the create, its wait, and the read-back. */
  lemma CreateSucceeds(d: ResourceData, tags: map<string, string>, remote: Remote)
    requires NameValidation.ValidNameIntended(d.keyspaceName) && NameValidation.ValidNameIntended(d.tableName)
    requires remote.createTable.None? && remote.wait.None?
    requires remote.find.Found? && remote.listTags.Success?
    ensures Create(d, tags, remote).diag.None?
    ensures Create(d, tags, remote).data.id == TableCreateResourceID(d.keyspaceName, d.tableName)
    ensures Create(d, tags, remote).calls == [
      CreateTable(NewCreateTableInput(d.keyspaceName, d.tableName, tags)),
      WaitFor(d.keyspaceName, d.tableName, WaitConf(CreateWait)),
      FindTable(d.keyspaceName, d.tableName),
      ListTags(StringValue(remote.find.table.resourceArn))]
  {
    var id := TableCreateResourceID(d.keyspaceName, d.tableName);
    IntendedNamesRoundTrip(d.keyspaceName, d.tableName);
    assert Read(d.(id := id), true, remote).calls ==
      [FindTable(d.keyspaceName, d.tableName), ListTags(StringValue(remote.find.table.resourceArn))];
  }

  /** A table that cannot be found right after it was created is an error, and the ID stays set. */
  lemma CreateThenNotFoundFails(d: ResourceData, tags: map<string, string>, remote: Remote)
    requires NameValidation.ValidNameIntended(d.keyspaceName) && NameValidation.ValidNameIntended(d.tableName)
    requires remote.createTable.None? && remote.wait.None? && remote.find.NotFound?
    ensures Create(d, tags, remote).diag ==
      Some(ReadingFailed(TableCreateResourceID(d.keyspaceName, d.tableName), NotFound))
    ensures Create(d, tags, remote).data.id == TableCreateResourceID(d.keyspaceName, d.tableName)
  {
    var id := TableCreateResourceID(d.keyspaceName, d.tableName);
    IntendedNamesRoundTrip(d.keyspaceName, d.tableName);
    assert Read(d.(id := id), true, remote).diag == Some(ReadingFailed(id, NotFound));
  }

  /** Once a create request with names of the intended form is accepted, the stored ID parses back to those names. */
  lemma CreatedIdParses(d: ResourceData, tags: map<string, string>, remote: Remote)
    requires NameValidation.ValidNameIntended(d.keyspaceName) && NameValidation.ValidNameIntended(d.tableName)
    requires remote.createTable.None?
    ensures TableParseResourceID(Create(d, tags, remote).data.id) == ParsedId(d.keyspaceName, d.tableName, None)
  {
    IntendedNamesRoundTrip(d.keyspaceName, d.tableName);
  }

  /**
    Delete is idempotent: after a delete has succeeded, a second delete of
    the same resource that the API answers with not-found succeeds too,
    without waiting.
   */
  lemma DeleteTwice(d: ResourceData, first: Remote, second: Remote)
    requires Delete(d, first).diag.None?
    requires IsResourceNotFound(second.deleteTable)
    ensures Delete(d, second).diag.None?
    ensures forall c :: c in Delete(d, second).calls ==> !c.WaitFor?
  {
  }

  /** Reading again with the same answers changes nothing once a read has succeeded. */
  lemma ReadIsStable(d: ResourceData, isNewResource: bool, remote: Remote)
    requires Read(d, isNewResource, remote).diag.None?
    requires Read(d, isNewResource, remote).data.id != ""
    ensures Read(Read(d, isNewResource, remote).data, false, remote).data == Read(d, isNewResource, remote).data
  {
  }

  /** A resource read as gone is dropped only when it is not new; the same answer for a new one is an error. */
  lemma ReadGoneVersusNew(d: ResourceData, remote: Remote)
    requires WellFormedId(d.id) && remote.find.NotFound?
    ensures Read(d, false, remote) == Outcome(d.(id := ""), Read(d, false, remote).calls, None)
    ensures Read(d, true, remote).diag == Some(ReadingFailed(d.id, NotFound))
    ensures Read(d, true, remote).data == d
  {
  }

  /** An update that only changes tags syncs them and reads back; it neither updates fields nor waits. */
  lemma UpdateOnlyTags(d: ResourceData, oldTagsAll: map<string, string>, remote: Remote)
    requires WellFormedId(d.id) && oldTagsAll != d.tagsAll && remote.updateTags.None?
    ensures Update(d, false, oldTagsAll, remote).calls ==
      [UpdateTags(d.arn, oldTagsAll, d.tagsAll)] + Read(d, false, remote).calls
    ensures Update(d, false, oldTagsAll, remote).diag == Read(d, false, remote).diag
  {
  }

  /** An update that only changes fields waits for ACTIVE again and never touches tags. */
  lemma UpdateOnlyFields(d: ResourceData, remote: Remote)
    requires WellFormedId(d.id) && remote.updateTable.None? && remote.wait.None?
    ensures Update(d, true, d.tagsAll, remote).calls ==
      [ UpdateTable(TableParseResourceID(d.id).keyspaceName, TableParseResourceID(d.id).tableName),
        WaitFor(TableParseResourceID(d.id).keyspaceName, TableParseResourceID(d.id).tableName, WaitConf(UpdateWait))
      ] + Read(d, false, remote).calls
  {
  }
}

=== FILE: table_status.dfy ===
/**
  The status probe `statusTable` and the pending/target status sets of the
  three waiters `waitTableCreated`, `waitTableUpdated` and `waitTableDeleted`.
 */
module TableStatus {
  import opened Wrappers

  const TableStatusCreating := "CREATING"
  const TableStatusActive := "ACTIVE"
  const TableStatusUpdating := "UPDATING"
  const TableStatusDeleting := "DELETING"

  /** An error reported by the Keyspaces API, identified by its error code. */
  datatype ApiError = ApiError(code: string, message: string)

  const ErrCodeResourceNotFoundException := "ResourceNotFoundException"

  /** The `GetTableOutput` fields the resource reads; each is a possibly-nil `*string`. */
  datatype Table = Table(
    resourceArn: Option<string>,
    keyspaceName: Option<string>,
    tableName: Option<string>,
    status: Option<string>)

  /** `aws.StringValue`: the pointed-to string, or `""` for nil, so nil and `""` read alike. */
  function StringValue(p: Option<string>): (r: string)
    ensures r == "" <==> p == None || p == Some("")
    ensures r != "" ==> p == Some(r)
  {
    match p
    case Some(v) => v
    case None => ""
  }

  /** What `FindTableByTwoPartKey` returned: the table, a not-found error, or another error. */
  datatype Lookup = Found(table: Table) | NotFound | LookupFailed(err: ApiError)

  /** The three results `(object, status, err)` of a `StateRefreshFunc`. */
  datatype Probe = Probe(obj: Option<Table>, status: string, err: Option<ApiError>)

  /**
    `statusTable`: a missing table is reported as no object with the empty
    status and no error, a failed lookup passes its error on, and a found
    table is reported together with its own status.
   */
  function StatusTable(lookup: Lookup): (p: Probe)
    ensures p.obj.Some? <==> lookup.Found?
    ensures p.err.Some? <==> lookup.LookupFailed?
    ensures !lookup.Found? ==> p.status == ""
    ensures lookup.Found? ==> p.obj.value == lookup.table && p.status == StringValue(lookup.table.status)
    ensures lookup.LookupFailed? ==> p.err.value == lookup.err
  {
    match lookup
    case NotFound => Probe(None, "", None)
    case LookupFailed(err) => Probe(None, "", Some(err))
    case Found(table) => Probe(Some(table), StringValue(table.status), None)
  }

  /** The probe loses nothing: different lookups give different probe results. */
  lemma StatusTableInjective(a: Lookup, b: Lookup)
    requires StatusTable(a) == StatusTable(b)
    ensures a == b
  {
  }

  /** Which of the three waiters. */
  datatype WaitKind = CreateWait | UpdateWait | DeleteWait

  /** The `Pending` and `Target` lists of a `resource.StateChangeConf`. */
  datatype WaitConfig = WaitConfig(pending: seq<string>, target: seq<string>)

  /**
    The configuration of `waitTableCreated` (CREATING until ACTIVE),
    `waitTableUpdated` (UPDATING until ACTIVE) and `waitTableDeleted`
    (DELETING until the table can no longer be found). The delete waiter's
    empty target is what makes a vanished table, which `StatusTable`
    reports as no object, the outcome it waits for.
   */
  function WaitConf(kind: WaitKind): (c: WaitConfig)
    ensures |c.pending| == 1
    ensures forall s :: s in c.pending ==> s !in c.target
    ensures c.target == [] <==> kind == DeleteWait
    ensures kind != DeleteWait ==> c.target == [TableStatusActive]
    ensures kind == CreateWait ==> c.pending == [TableStatusCreating]
    ensures kind == UpdateWait ==> c.pending == [TableStatusUpdating]
    ensures kind == DeleteWait ==> c.pending == [TableStatusDeleting]
  {
    match kind
    case CreateWait => WaitConfig([TableStatusCreating], [TableStatusActive])
    case UpdateWait => WaitConfig([TableStatusUpdating], [TableStatusActive])
    case DeleteWait => WaitConfig([TableStatusDeleting], [])
  }

  /** Each waiter waits on its own pending status. */
  lemma WaitConfDistinctPending(k1: WaitKind, k2: WaitKind)
    requires WaitConf(k1).pending == WaitConf(k2).pending
    ensures k1 == k2
  {
  }
}

=== FILE: wrappers.dfy ===
/** Failure-compatible wrappers shared by the model. */
module Wrappers {

  /** A Go pointer or "comma ok" value: either absent or present. */
  datatype Option<+T> = None | Some(value: T)

  /** A Go `(value, error)` pair in which exactly one half is meaningful. */
  datatype Result<+T, +E> = Success(value: T) | Failure(error: E)
}
